=== FILE: README.md ===
# PomoFocus timer engine and popup arithmetic in Dafny

PomoFocus is a browser-extension timer with five modes: focus (25 min),
short break (5 min), long break (15 min), custom, and Tabata. Tabata
alternates work and rest phases for a configured number of rounds.

The background script holds one state record. Two things overwrite its
fields:

- a tick driven by the browser's alarm, which reconciles the remaining
  seconds against the wall clock and advances the phase when time runs out;
- a message listener with the commands `get_state`, `get_state_raw`,
  `set_mode`, `set_tabata_config`, `start`, `pause` and `reset`.

The popup polls that record and interpolates the countdown locally. It
renders the countdown as MM:SS and turns its inputs and buttons into
commands.

The model has five modules:

- `Format` (`format.dfy`): JavaScript's decimal rendering of integers and
  `padStart(2, '0')`. It also defines `DigitsValue`, the value of a digit
  string, and proves it is the inverse of the rendering.
- `Timer` (`timer.dfy`): the record as a datatype. Every transition of the
  background script is a pure function from the old record and the clock
  reading `now` to the new record and the list of browser calls it makes, in
  source order:
  - `PlayAlert` (the chime, through the offscreen document);
  - `Notify` (a notification, carried as a `Notice` whose title and message
    text `NoticeTitle` and `NoticeMessage` give);
  - badge text and colour;
  - arming and clearing the tick alarm.
- `Background` (`engine.dfy`): the record as the class `TimerEngine`, whose
  methods overwrite its fields step by step as the script does. Each method
  is proved to leave the record, and to return the calls, exactly as its
  `Timer` function says.
- `TimerProperties` (`timer_properties.dfy`): what the engine promises. This
  covers:
  - the tick's branches;
  - how the commands relate to each other and to the tick;
  - the full Tabata schedule, by induction over the number of expiries;
  - the invariant along any run of ticks and commands;
  - a focus scenario and a Tabata scenario.
- `Popup` (`popup.dfy`): `formatTime` and its inverse, the interpolated
  display seconds and the re-fetch rule, the custom minute/second split and
  its recombination, the Tabata input defaults, and the duration a mode
  button asks for. Each is related to the `Timer` transition it feeds.

The clock is a parameter. `Date.now()` becomes the argument `now`, in
milliseconds.

`Math.round(d / 1000)` is `(d + 500) / 1000`. Dafny's division floors for a
positive divisor, and `Math.round` rounds halves up, so the two agree.
`RoundedElapsed` states the rounding bounds.

JavaScript's `%` truncates, so `JsRem` models it. `parseInt` is modelled by
its result, an `Option<int>`. `||` with a default is `OrDefault`.

Two behaviours of the code that one might not expect, which the model
follows:

- `get_state` subtracts the elapsed seconds only when they do not exceed
  what remains, and it never expires a phase (background.js:139).
- A completed non-Tabata timer ends with `remainingSeconds` equal to
  `totalSeconds` (background.js:127), not 0.

## Model

| member | source | states |
|---|---|---|
| Format.NatToString | background.js:35 | The decimal rendering of a whole number is non-empty and all digits. It has no leading zero and denotes the number. It is one character exactly below 10 and two exactly from 10 to 99. |
| Format.IntToString | background.js:35 | JavaScript's `toString` of an integer is non-empty. For n >= 0 it is digits denoting n without a leading zero. For n < 0 it is '-' followed by digits denoting -n, again without a leading zero. |
| Format.PadStart2 | popup.js:34 | `padStart(2, '0')` yields length max(2, \|s\|). The original string is its suffix and only '0's are added in front. |
| Format.LeadingZeroValue | popup.js:34 | Prefixing a '0' keeps a digit string's value (induction on the string). |
| Format.PaddedValue | popup.js:34 | Padding a digit string to two places keeps it digits and keeps its value. |
| Timer.RoundedElapsed | background.js:78 | The rounded elapsed seconds e are the whole seconds nearest to the elapsed milliseconds: 1000e - 500 <= d < 1000e + 500. |
| Timer.BadgeEffects | background.js:32-40 | `updateBadge` always sets the badge text first. |
| Timer.BadgeShows | background.js:32-40 | The badge text is empty exactly when not running. While running it is floor(remaining/60) in decimal without a leading zero, or "<1" below a minute. The colour is the rest colour exactly during a Tabata rest. |
| Timer.BadgeIsSilent | background.js:32-40 | Badge updates never sound an alert or raise a notification. |
| Timer.BadgeText | background.js:34-35 | The badge text is empty exactly when not running. While running it is the whole minutes left in decimal without a leading zero, or "<1" below one minute. |
| Timer.BadgeColor | background.js:36 | The badge colour is the rest colour exactly during a Tabata rest, and the work colour otherwise. |
| Timer.CompletionNotice | background.js:121-124 | A non-Tabata expiry raises "Focus Done" exactly for focus, "Break Over" exactly for the two breaks, and "Timer Complete" for custom. |
| Timer.NoticeTitle | background.js:97-125 | The title of each notification, as the source writes it. |
| Timer.NoticeTitleNamesKind | background.js:97-125 | Two notifications have the same title exactly when they are of the same kind. |
| Timer.NoticeMessage | background.js:97-124 | The message of each notification, as the source writes it, with the round, the rest length or the number of rounds in decimal. |
| Timer.Reconciled | background.js:78-84 | The tick's reconciliation changes only the remaining seconds and the checkpoint, which becomes `now`. Remaining never goes below 0. It reaches 0 exactly when the rounded elapsed seconds reach it, and otherwise drops by exactly those seconds. |
| Timer.ExpiredState | background.js:89-128 | The phase advance keeps mode and configuration and leaves remaining equal to total. It stops the timer when the run ends. Otherwise it keeps the run state, flips the phase and moves the checkpoint to `now`. Outside Tabata the total stays; in Tabata the total is the new phase's length, and the end of the run rewinds to round 1's work phase. |
| Timer.EndsRun | background.js:100-128 | The expiry ends the run outside Tabata, and in Tabata exactly after the last round's rest. |
| Timer.ExpiryNotice | background.js:89-128 | The expiry raises the mode's completion notice outside Tabata. In Tabata it raises "Tabata Rest" exactly after a work phase, "Tabata Complete!" exactly when the run ends, and "Tabata Work" exactly after a rest that does not end the run. "Tabata Rest" carries the current round and the rest length, "Tabata Work" the next round, which is at most the maximum, and "Tabata Complete!" the configured number of rounds. |
| Timer.Expire | background.js:89-130 | The phase advance's calls start with the alert and then the branch's notification. They include the alarm cancellation exactly when the run ends, and they end with the badge update for the new record. |
| Timer.ReplyTo | background.js:133-212 | The listener answers with the record after the command exactly for `get_state` and `get_state_raw`, and with `{success: true}` otherwise. |
| Timer.Tick | background.js:73-131 | A tick keeps the invariant, the mode and the Tabata configuration. The round only grows or rewinds to 1. |
| Timer.ExpireShape | background.js:89-130 | An expiry's calls are the alert, then the phase's notification, then only silent calls. |
| Timer.ExpireAlertsOnce | background.js:89-128 | An expiry sounds exactly one alert and raises exactly one notification, the one its branch names. |
| Timer.TickAlertsOnExpiry | background.js:89-128 | A tick that runs the phase out sounds one alert and raises only that branch's notification. |
| Timer.TickSilentOtherwise | background.js:73-88 | Any other tick sounds nothing and notifies nothing. |
| Timer.ReconcileForQuery | background.js:134-144 | When running with 0 < e <= remaining (e the rounded elapsed seconds), `get_state` subtracts exactly e and moves the checkpoint to `now`. Otherwise the record is unchanged. Only those two fields ever change; it keeps the invariant and never drops below 0. |
| Timer.SetModeState | background.js:148-164 | `set_mode` always leaves the timer stopped in the requested mode with remaining equal to total. Outside Tabata the total is the requested one and round and phase stay. In Tabata the total is the work length, at round 1's work phase. Configuration and checkpoint stay. It keeps the invariant for a non-negative duration. |
| Timer.SetTabataConfigState | background.js:165-175 | `set_tabata_config` stores the three numbers. A stopped Tabata timer is rewound to round 1's work phase with remaining = total = the new work length; any other record changes only the three numbers. It keeps the invariant for non-negative lengths. It keeps the round in range unless maxRounds < 1, or it lowers the maximum below the current round on a timer that is not a stopped Tabata timer. |
| Timer.StartState | background.js:176-183 | `start` leaves the timer running with the checkpoint at `now`. Remaining is kept when positive and becomes the total otherwise. Nothing else changes. Under the invariant something remains unless the total itself is 0. |
| Timer.PauseState | background.js:184-196 | `pause` always ends paused. When running with 0 < e <= remaining it subtracts exactly e; otherwise remaining is unchanged. The checkpoint and every other field stay. It never drops below 0 and keeps the invariant. |
| Timer.ResetState | background.js:197-210 | `reset` leaves the timer stopped at round 1, work phase, with remaining = total = the work length in Tabata and the old total otherwise. Mode, configuration and checkpoint are unchanged. |
| Timer.Handle | background.js:133-212 | Every admissible command keeps the invariant 0 <= remaining <= total, round >= 1, and non-negative phase lengths. |
| Timer.CommandsAreSilent | background.js:133-212 | No command sounds an alert or raises a notification. |
| Background.TimerEngine.constructor | background.js:1-12 | The record starts stopped in focus mode at 1500 of 1500 s, round 1, work, 20/10/8, and satisfies the invariant. |
| Background.TimerEngine.UpdateBadge | background.js:32-40 | Returns the badge calls for the current record. |
| Background.TimerEngine.HandleTick | background.js:73-131 | The in-place tick leaves the record and returns the calls exactly as `Timer.Tick` says. |
| Background.TimerEngine.AdvancePhase | background.js:89-130 | The in-place phase advance matches `Timer.Expire`, branch by branch and call by call. |
| Background.TimerEngine.GetState | background.js:134-144 | Updates the record as `Timer.ReconcileForQuery` says and answers with the updated record. |
| Background.TimerEngine.GetStateRaw | background.js:145-147 | Answers with the record unchanged. |
| Background.TimerEngine.SetMode | background.js:148-164 | Record as `Timer.SetModeState`. The calls are the badge update, then the alarm cancellation. |
| Background.TimerEngine.SetTabataConfig | background.js:165-175 | Record as `Timer.SetTabataConfigState`. |
| Background.TimerEngine.Start | background.js:176-183 | Record as `Timer.StartState`. The calls are arming the alarm, then the badge update. |
| Background.TimerEngine.Pause | background.js:184-196 | Record as `Timer.PauseState`. The calls are the alarm cancellation, then the badge update. |
| Background.TimerEngine.Reset | background.js:197-210 | Record as `Timer.ResetState`. The calls are the badge update, then the alarm cancellation. |
| Background.TimerEngine.HandleMessage | background.js:133-212 | The listener dispatches to the command. The record, calls and reply are as `Timer.Handle`/`Timer.ReplyTo` say, and the invariant is kept for admissible requests. |
| TimerProperties.TickIdle | background.js:74-87 | A tick changes nothing and calls nothing unless running with positive rounded elapsed seconds. |
| TimerProperties.TickCountsDown | background.js:80-87 | Short of expiry, a tick takes off exactly the rounded elapsed seconds and moves the checkpoint to `now`. It changes nothing else and only updates the badge. |
| TimerProperties.TickNeverAddsTime | background.js:80-87 | Short of expiry, a tick never adds time and never changes the run state. |
| TimerProperties.TickFinishesTimer | background.js:118-128 | Non-Tabata expiry stops the timer and rewinds it to its full duration. Round, phase, mode and configuration stay and the checkpoint is `now`. It sounds one alert, raises only "Focus Done" / "Break Over" / "Timer Complete" by mode, and cancels the alarm. |
| TimerProperties.TickEndsWorkPhase | background.js:91-130 | Work expiry starts the same round's rest phase at its full length, whatever the overshoot. The checkpoint is `now`, with one alert and only "Tabata Rest". The badge ends in the rest colour. |
| TimerProperties.TickEndsRestPhase | background.js:98-116 | Rest expiry either moves to the next round's full work phase ("Tabata Work") or, past the last round, stops and rewinds to round 1 ("Tabata Complete!"). Either way the checkpoint is `now`, the configuration stays, and there is one alert. |
| TimerProperties.TickKeepsRoundInRange | background.js:98-116 | A tick keeps the round within 1..maxRounds. |
| TimerProperties.HandleKeepsRoundInRange | background.js:165-175 | Commands keep the round in range, except a configuration with maxRounds < 1, or one that lowers the maximum below the current round on a timer that is not a stopped Tabata timer. |
| TimerProperties.ConfigWhileRunningLeavesRoundAboveMax | background.js:165-175 | Witness for that exception: 3 rounds configured during round 5. |
| TimerProperties.QueryIsIdempotent | background.js:134-144 | Two `get_state` queries at the same instant answer as one does. |
| TimerProperties.QueryAgreesWithTick | background.js:134-144 | `get_state` agrees with the tick short of expiry. Past it, `get_state` leaves the record alone and the tick would expire. |
| TimerProperties.PauseThenStartKeepsProgress | background.js:184-196 | Pausing takes off exactly the rounded elapsed seconds when 0 < e <= remaining, and nothing otherwise. Whenever the pause leaves time, a later `start` resumes from exactly that. A pause that leaves 0 is followed by a start from the full total. |
| TimerProperties.StartAfterCompletionIsFresh | background.js:176-179 | After a non-Tabata completion, `start` runs a fresh full-duration countdown. |
| TimerProperties.SetModeTabataIgnoresDuration | background.js:151-155 | `set_mode` to Tabata ignores the requested duration and starts round 1's work phase. |
| TimerProperties.ResetIsIdempotent | background.js:197-206 | Resetting twice equals resetting once. |
| TimerProperties.DueTimeExpires | background.js:78-89 | A tick max(remaining, 1) seconds after the checkpoint runs the phase out. |
| TimerProperties.TabataStep | background.js:89-117 | One expiry moves a running Tabata timer from phase position p to p + 1 at full length, or, after the last phase, to stopped at round 1. |
| TimerProperties.TabataSchedule | background.js:89-117 | After k expiries a running Tabata timer is at position p + k: work, rest, work, ..., with the round growing at each rest-to-work boundary. After exactly 2*maxRounds - p expiries it is stopped at round 1's work phase (induction on k). |
| TimerProperties.RunKeepsInv | background.js:73-212 | Any sequence of ticks and admissible commands, at any clock readings, keeps the invariant (induction on the run). |
| TimerProperties.InitialStateIsValid | background.js:1-12 | The initial record satisfies the invariant and has its round in range. |
| TimerProperties.FocusScenario | background.js:118-128 | A focus timer started at 0 and ticked at 1500 s stops at 1500 with one alert and only "Focus Done" / "Take a break!". |
| TimerProperties.TabataScenario | background.js:89-117 | Configured 5/3/2 and started, then ticked at 5, 8, 13 and 16 s, Tabata visits work, rest, round-2 work, rest, then stops at round 1's 5 s work phase. |
| Popup.JsRem | popup.js:33 | JavaScript's remainder for a positive divisor takes the sign of the dividend and is smaller in magnitude than the divisor. |
| Popup.JsRemValue | popup.js:33 | The remainder is the dividend minus the divisor times the quotient truncated toward zero, as JavaScript defines `%`. |
| Popup.OrDefault | popup.js:98-100 | `parseInt(x) \|\| d` gives d for an unparsable or zero input and keeps any other value. |
| Popup.FormatTime | popup.js:31-35 | For t >= 0, `formatTime` draws a clock face: its digits before the ':' denote floor(t/60), padded to two places and otherwise without a leading zero. Its two digits after the ':' denote t % 60 (00..59). Below 6000 s it is five characters long. |
| Popup.PaddedField | popup.js:34 | A number rendered and padded has at least two digits, exactly two below 100, no leading zero beyond the padding, and denotes the number. |
| Popup.JoinedFields | popup.js:34 | Joining the two padded fields with ':' gives a clock face with those fields. |
| Popup.ClockValueOfFormatTime | popup.js:31-35 | Reading back the clock face gives the seconds it was drawn from (decode after encode). |
| Popup.FormatTimeInjective | popup.js:31-35 | Distinct non-negative second counts render differently. |
| Popup.DisplaySeconds | popup.js:126-136 | The displayed seconds lie in 0..remaining. They differ from the record's value only while running with a real checkpoint and positive rounded elapsed seconds. |
| Popup.DisplayAgreesWithTick | popup.js:126-136 | Short of expiry, the interpolated display equals what the background's tick would leave at the same instant. |
| Popup.NeedsRefetch | popup.js:192-194 | The popup asks for a fresh record exactly when the display shows 0 while the fetched record is running. |
| Popup.RefetchExactlyAtExpiry | popup.js:192-194 | For a running timer with time left, the popup re-fetches exactly when the tick at that instant would expire the phase. |
| Popup.SplitCustom | popup.js:72-73 | For total >= 0, the split gives minutes >= 0 and seconds in 0..59 that recombine to total. |
| Popup.CustomRequest | popup.js:110-121 | `updateCustomVals` sends a custom `set_mode` exactly when minutes*60 + seconds (unparsable fields as 0) is positive. The request carries exactly that total and is admissible. |
| Popup.CustomFieldsRoundTrip | popup.js:111-114 | Submitting the split fields of a positive duration asks for exactly that duration. The background then holds it stopped as remaining and total. |
| Popup.TabataRequest | popup.js:97-108 | Each empty, unparsable or zero Tabata field becomes its default (20, 10, 8). Others pass unchanged, so no zero reaches the background. |
| Popup.TabataRequestAdmissible | popup.js:97-108 | Non-negative fields give an admissible configuration. It leaves a stopped Tabata timer stopped at round 1's work phase, with positive lengths and remaining = total = the work length. |
| Popup.NegativeWorkPassesThrough | popup.js:98 | A typed -5 work length is sent unchanged, is not admissible, and breaks the invariant. |
| Popup.PresetSeconds | popup.js:14-18 | The preset durations are positive. |
| Popup.ModeClick | popup.js:229-248 | A mode button asks for the clicked mode with: the work length (Tabata); the current total if already custom, else 600 (custom); 1500/300/900 (focus/short/long). |
| Popup.ModeClickOutcome | popup.js:229-248 | From a valid record every mode button sends an admissible request. The timer ends stopped in that mode with remaining equal to total: 1500/300/900 for the presets, the current total for custom from custom, 600 for custom from another mode, and the work length at round 1's work phase for Tabata. |

## Left out

- offscreen.js (the chime synthesis) is not part of this model. It is floating-point Web Audio with no state; the model records only that an alert was requested (`PlayAlert`).
- The browser APIs (alarms, notifications, badge, runtime messaging) are not executed. Each call is returned as an `Effect` value in source order. The notification icon and priority, and `setupOffscreen`, are not modelled.
- The clock: `Date.now()` is the parameter `now`. The second reading inside the Tabata phase changes (background.js:96, 114) is taken to be the same `now`, since the two differ only by the time the handler takes.
- The mode and command strings: an unknown mode string and an unknown command are not modelled. Requests are the `Request` datatype and modes the `Mode` datatype; a listener message with no matching command does nothing in the source.
- The reply callback's `return true` (asynchronous response) is not modelled; only the reply value is.
- The text scanning of `parseInt` is not modelled; only its result is, as `Option<int>`.
- The popup's DOM work is not modelled: `renderEditableSettings`, `updateUI`'s class toggling and colours, the `fetchState`/`setInterval`/`requestAnimationFrame` loops, the `currentState` and `lastRenderedMode` globals (popup.js:1-12 holds the same initial record as `Timer.InitialState`), and the progress ring (floating point).
- Numbers: JavaScript numbers are IEEE doubles, and the model uses unbounded integers. The model agrees with the source only while values stay below 2^53 in magnitude, where doubles hold every integer exactly. `Format.IntToString` gives plain decimal, which matches `toString` only below 10^21; from there JavaScript switches to exponent form ("1e+21"). Any of the five numeric inputs reaches such values: the custom minute and second fields (popup.js:111-118) and the Tabata work, rest and rounds fields (popup.js:97-99). The badge, the clock face and the notification messages (`Timer.NoticeMessage`, for instance "Rest for 1e+21s!") would then show exponent form where the model shows plain digits.
- Popup.SplitCustom: the recombination is stated only for total >= 0. For a negative total, floor division and JavaScript's remainder do not recombine (-61 splits into -2 and -1). The popup shows the split only in custom mode, whose durations it always sends positive.
- Popup.FormatTime: the clock-face properties are stated only for t >= 0. A negative t is rendered as JavaScript renders it (-5 gives "-1:-5"), and the displayed seconds are never negative while the invariant holds.
- Timer.Handle: the invariant is proved only for admissible requests (non-negative durations and phase lengths). The source accepts any number, and `Popup.NegativeWorkPassesThrough` shows that a negative one typed into the popup breaks the invariant.
- TimerProperties.HandleKeepsRoundInRange: `round <= maxRounds` is not a global invariant. `set_tabata_config` may set maxRounds below 1, or lower the maximum below the current round on a timer that is not a stopped Tabata timer; only a stopped Tabata timer is rewound to round 1. That includes a stopped non-Tabata timer that kept round 5 from an earlier Tabata run, because `set_mode` to another mode does not touch the round (background.js:156-159). The lemma therefore carries that condition.

=== FILE: engine.dfy ===
/**
 * The background script's global state record and the handlers that
 * overwrite its fields: the alarm-driven tick and each command of the
 * message listener. Each handler is proved to leave the record as the pure
 * transition of module Timer says and to return the browser calls that
 * transition lists.
 */
module Background {
  import Timer
  import Format

  class TimerEngine {
    var runState: Timer.RunState
    var mode: Timer.Mode
    var remainingSeconds: int
    var totalSeconds: int
    var tabataRound: int
    var tabataPhase: Timer.Phase
    var tabataWorkSecs: int
    var tabataRestSecs: int
    var tabataMaxRounds: int
    var lastTickTime: int

    /** The record as a value. */
    function State(): Timer.TimerState
      reads this
    {
      Timer.TimerState(runState, mode, remainingSeconds, totalSeconds, tabataRound, tabataPhase,
                       tabataWorkSecs, tabataRestSecs, tabataMaxRounds, lastTickTime)
    }

    /** The record as the script creates it when it loads. */
    constructor ()
      ensures State() == Timer.InitialState && Timer.Inv(State())
    {
      runState := Timer.Stopped;
      mode := Timer.Focus;
      remainingSeconds := 25 * 60;
      totalSeconds := 25 * 60;
      tabataRound := 1;
      tabataPhase := Timer.Work;
      tabataWorkSecs := 20;
      tabataRestSecs := 10;
      tabataMaxRounds := 8;
      lastTickTime := 0;
    }

    /** `updateBadge`: the badge calls for the current record. */
    method UpdateBadge() returns (effects: seq<Timer.Effect>)
      ensures effects == Timer.BadgeEffects(State())
    {
      if runState == Timer.Running {
        var mins := remainingSeconds / 60;
        var text := if mins > 0 then Format.IntToString(mins) else "<1";
        var color := if mode == Timer.Tabata && tabataPhase == Timer.Rest then Timer.RestColor else Timer.WorkColor;
        effects := [Timer.SetBadgeText(text), Timer.SetBadgeColor(color)];
      } else {
        effects := [Timer.SetBadgeText("")];
      }
    }

    /** `handleTick`, with the clock reading `now` passed in. */
    method HandleTick(now: int) returns (effects: seq<Timer.Effect>)
      modifies this
      ensures State() == Timer.Tick(old(State()), now).state
      ensures effects == Timer.Tick(old(State()), now).effects
    {
      effects := [];
      if runState != Timer.Running {
        return;
      }
      var elapsedSecs := Timer.RoundedElapsed(now, lastTickTime);
      if elapsedSecs > 0 {
        remainingSeconds := remainingSeconds - elapsedSecs;
        lastTickTime := now;
        if remainingSeconds < 0 {
          remainingSeconds := 0;
        }
      } else {
        return;
      }

      ghost var reconciled := State();
      assert reconciled == old(State()).(remainingSeconds := reconciled.remainingSeconds, lastTickTime := now);
      if remainingSeconds <= 0 {
        effects := AdvancePhase(now);
      } else {
        effects := UpdateBadge();
      }
    }

    /** The phase-advance policy of `handleTick`, once nothing remains, ending with `updateBadge`. */
    method AdvancePhase(now: int) returns (effects: seq<Timer.Effect>)
      modifies this
      ensures State() == Timer.Expire(old(State()), now).state
      ensures effects == Timer.Expire(old(State()), now).effects
    {
      effects := [];
      if mode == Timer.Tabata {
        if tabataPhase == Timer.Work {
          effects := effects + [Timer.PlayAlert];
          tabataPhase := Timer.Rest;
          remainingSeconds := tabataRestSecs;
          totalSeconds := tabataRestSecs;
          lastTickTime := now;
          effects := effects + [Timer.Notify(Timer.TabataRest(tabataRound, tabataRestSecs))];
          assert effects == [Timer.PlayAlert, Timer.Notify(Timer.ExpiryNotice(old(State())))] + [];
        } else {
          tabataRound := tabataRound + 1;
          if tabataRound > tabataMaxRounds {
            effects := effects + [Timer.PlayAlert];
            runState := Timer.Stopped;
            remainingSeconds := tabataWorkSecs;
            totalSeconds := tabataWorkSecs;
            tabataRound := 1;
            tabataPhase := Timer.Work;
            effects := effects + [Timer.Notify(Timer.TabataComplete(tabataMaxRounds)), Timer.ClearTickAlarm];
            assert effects == [Timer.PlayAlert, Timer.Notify(Timer.ExpiryNotice(old(State())))] + [Timer.ClearTickAlarm];
          } else {
            effects := effects + [Timer.PlayAlert];
            tabataPhase := Timer.Work;
            remainingSeconds := tabataWorkSecs;
            totalSeconds := tabataWorkSecs;
            lastTickTime := now;
            effects := effects + [Timer.Notify(Timer.TabataWork(tabataRound))];
            assert effects == [Timer.PlayAlert, Timer.Notify(Timer.ExpiryNotice(old(State())))] + [];
          }
        }
      } else {
        effects := effects + [Timer.PlayAlert];
        runState := Timer.Stopped;
        effects := effects + [Timer.Notify(Timer.CompletionNotice(mode)), Timer.ClearTickAlarm];
        assert effects == [Timer.PlayAlert, Timer.Notify(Timer.ExpiryNotice(old(State())))] + [Timer.ClearTickAlarm];
        remainingSeconds := totalSeconds;
      }
      assert effects == [Timer.PlayAlert, Timer.Notify(Timer.ExpiryNotice(old(State())))]
                        + if Timer.EndsRun(old(State())) then [Timer.ClearTickAlarm] else [];
      var badge := UpdateBadge();
      effects := effects + badge;
    }

    /** `get_state`: reconcile into the record when 0 < elapsed <= remaining, then answer with the record. */
    method GetState(now: int) returns (reply: Timer.TimerState)
      modifies this
      ensures State() == Timer.ReconcileForQuery(old(State()), now)
      ensures reply == State()
    {
      if runState == Timer.Running {
        var elapsed := Timer.RoundedElapsed(now, lastTickTime);
        if elapsed > 0 && elapsed <= remainingSeconds {
          remainingSeconds := remainingSeconds - elapsed;
          lastTickTime := now;
        }
      }
      reply := State();
    }

    /** `get_state_raw`: answer with the record as it is. */
    method GetStateRaw() returns (reply: Timer.TimerState)
      ensures reply == State()
    {
      reply := State();
    }

    /** `set_mode`. */
    method SetMode(newMode: Timer.Mode, requestedTotal: int) returns (effects: seq<Timer.Effect>)
      modifies this
      ensures State() == Timer.SetModeState(old(State()), newMode, requestedTotal)
      ensures effects == Timer.BadgeEffects(State()) + [Timer.ClearTickAlarm]
    {
      mode := newMode;
      if newMode == Timer.Tabata {
        totalSeconds := tabataWorkSecs;
        remainingSeconds := tabataWorkSecs;
        tabataRound := 1;
        tabataPhase := Timer.Work;
      } else {
        totalSeconds := requestedTotal;
        remainingSeconds := requestedTotal;
      }
      runState := Timer.Stopped;
      var badge := UpdateBadge();
      effects := badge + [Timer.ClearTickAlarm];
    }

    /** `set_tabata_config`. */
    method SetTabataConfig(workSecs: int, restSecs: int, maxRounds: int)
      modifies this
      ensures State() == Timer.SetTabataConfigState(old(State()), workSecs, restSecs, maxRounds)
    {
      tabataWorkSecs := workSecs;
      tabataRestSecs := restSecs;
      tabataMaxRounds := maxRounds;
      if mode == Timer.Tabata && runState == Timer.Stopped {
        totalSeconds := tabataWorkSecs;
        remainingSeconds := tabataWorkSecs;
        tabataRound := 1;
        tabataPhase := Timer.Work;
      }
    }

    /** `start`, including `startAlarm`'s checkpoint at `now`. */
    method Start(now: int) returns (effects: seq<Timer.Effect>)
      modifies this
      ensures State() == Timer.StartState(old(State()), now)
      ensures effects == [Timer.ArmTickAlarm] + Timer.BadgeEffects(State())
    {
      if remainingSeconds <= 0 {
        remainingSeconds := totalSeconds;
      }
      runState := Timer.Running;
      lastTickTime := now;
      var badge := UpdateBadge();
      effects := [Timer.ArmTickAlarm] + badge;
    }

    /** `pause`. */
    method Pause(now: int) returns (effects: seq<Timer.Effect>)
      modifies this
      ensures State() == Timer.PauseState(old(State()), now)
      ensures effects == [Timer.ClearTickAlarm] + Timer.BadgeEffects(State())
    {
      if runState == Timer.Running {
        var elapsed := Timer.RoundedElapsed(now, lastTickTime);
        if elapsed > 0 && elapsed <= remainingSeconds {
          remainingSeconds := remainingSeconds - elapsed;
        }
      }
      runState := Timer.Paused;
      var badge := UpdateBadge();
      effects := [Timer.ClearTickAlarm] + badge;
    }

    /** `reset`. */
    method Reset() returns (effects: seq<Timer.Effect>)
      modifies this
      ensures State() == Timer.ResetState(old(State()))
      ensures effects == Timer.BadgeEffects(State()) + [Timer.ClearTickAlarm]
    {
      runState := Timer.Stopped;
      if mode == Timer.Tabata {
        remainingSeconds := tabataWorkSecs;
        totalSeconds := tabataWorkSecs;
      } else {
        remainingSeconds := totalSeconds;
      }
      tabataRound := 1;
      tabataPhase := Timer.Work;
      var badge := UpdateBadge();
      effects := badge + [Timer.ClearTickAlarm];
    }

    /**
     * The message listener: dispatch on the command. The record ends as
     * Timer.Handle says, so it keeps Timer.Inv for every admissible request.
     */
    method HandleMessage(req: Timer.Request, now: int) returns (reply: Timer.Reply, effects: seq<Timer.Effect>)
      modifies this
      ensures State() == Timer.Handle(old(State()), req, now).state
      ensures effects == Timer.Handle(old(State()), req, now).effects
      ensures reply == Timer.ReplyTo(req, State())
      ensures old(Timer.Inv(State())) && Timer.Admissible(req) ==> Timer.Inv(State())
    {
      effects := [];
      reply := Timer.Success;
      if req.GetState? {
        var snapshot := GetState(now);
        reply := Timer.StateReply(snapshot);
      } else if req.GetStateRaw? {
        var snapshot := GetStateRaw();
        reply := Timer.StateReply(snapshot);
      } else if req.SetMode? {
        effects := SetMode(req.mode, req.totalSeconds);
      } else if req.SetTabataConfig? {
        SetTabataConfig(req.workSecs, req.restSecs, req.maxRounds);
      } else if req.Start? {
        effects := Start(now);
      } else if req.Pause? {
        effects := Pause(now);
      } else {
        effects := Reset();
      }
    }
  }
}

=== FILE: format.dfy ===
/**
 * Decimal rendering of integers the way JavaScript's Number.prototype.toString
 * and String.prototype.padStart(2, '0') produce it, together with the value a
 * string of decimal digits denotes, which serves as their inverse.
 */
module Format {

  predicate IsDigit(c: char) {
    '0' <= c <= '9'
  }

  predicate AllDigits(s: string) {
    forall i :: 0 <= i < |s| ==> IsDigit(s[i])
  }

  function DigitChar(d: int): (c: char)
    requires 0 <= d < 10
    ensures IsDigit(c) && c as int - '0' as int == d
  {
    ('0' as int + d) as char
  }

  /** The natural number a string of decimal digits denotes, most significant digit first. */
  function DigitsValue(s: string): nat
    requires AllDigits(s)
  {
    if s == [] then 0
    else
      assert IsDigit(s[|s| - 1]);
      DigitsValue(s[..|s| - 1]) * 10 + (s[|s| - 1] as int - '0' as int)
  }

  /**
   * The canonical decimal rendering of a natural number: digits only, no
   * leading zero, and it denotes n. Its length is 1 exactly below 10 and 2
   * exactly from 10 to 99.
   */
  function NatToString(n: nat): (r: string)
    ensures 1 <= |r| && AllDigits(r)
    ensures DigitsValue(r) == n
    ensures r[0] == '0' ==> n == 0
    ensures |r| == 1 <==> n < 10
    ensures |r| == 2 <==> 10 <= n < 100
    decreases n
  {
    if n < 10 then [DigitChar(n)]
    else
      var prefix := NatToString(n / 10);
      var r := prefix + [DigitChar(n % 10)];
      assert r[..|r| - 1] == prefix;
      r
  }

  /** JavaScript's rendering of an integer-valued Number: a minus sign, then the digits of its magnitude. */
  function IntToString(n: int): (r: string)
    ensures 1 <= |r|
    ensures n >= 0 ==> AllDigits(r) && DigitsValue(r) == n && (r[0] == '0' ==> n == 0)
    ensures n < 0 ==> r[0] == '-' && AllDigits(r[1..]) && DigitsValue(r[1..]) == -n && |r| >= 2 && r[1] != '0'
  {
    if n < 0 then
      var digits := NatToString(-n);
      assert ("-" + digits)[1..] == digits;
      "-" + digits
    else NatToString(n)
  }

  /** `s.padStart(2, '0')`: left-pad with '0' up to length 2; a longer string is unchanged. */
  function PadStart2(s: string): (r: string)
    ensures |r| == if |s| < 2 then 2 else |s|
    ensures r[|r| - |s|..] == s
    ensures forall i :: 0 <= i < |r| - |s| ==> r[i] == '0'
  {
    if |s| < 2 then seq(2 - |s|, _ => '0') + s else s
  }

  /** A leading '0' does not change the value of a digit string. */
  lemma {:induction false} LeadingZeroValue(s: string)
    requires AllDigits(s)
    ensures AllDigits(['0'] + s) && DigitsValue(['0'] + s) == DigitsValue(s)
  {
    var z := ['0'] + s;
    if s != [] {
      var init := s[..|s| - 1];
      assert z[..|z| - 1] == ['0'] + init;
      LeadingZeroValue(init);
    } else {
      assert z[..|z| - 1] == [];
    }
  }

  /** Padding a digit string to two places keeps it a digit string of the same value. */
  lemma PaddedValue(s: string)
    requires AllDigits(s)
    ensures AllDigits(PadStart2(s)) && DigitsValue(PadStart2(s)) == DigitsValue(s)
  {
    if |s| == 1 {
      assert PadStart2(s) == ['0'] + s;
      LeadingZeroValue(s);
    } else if |s| == 0 {
      assert PadStart2(s) == ['0'] + ['0'];
      LeadingZeroValue(['0']);
      LeadingZeroValue([]);
    }
  }
}

=== FILE: popup.dfy ===
/**
 * The popup's display arithmetic: the MM:SS rendering, the seconds it shows
 * between two state fetches, the minute/second split of a custom duration
 * and its recombination, the defaults for the Tabata inputs, and the
 * duration a mode button asks for. Each is related to the background
 * transitions of module Timer it feeds or mirrors.
 */
module Popup {
  import opened Format
  import opened Timer

  datatype Option<T> = None | Some(value: T)

  // ---------------------------------------------------------------------------
  // JavaScript arithmetic

  /**
   * JavaScript's `a % b` for a positive divisor: the remainder takes the sign
   * of the dividend, so it differs from Dafny's `%` for negative `a`.
   */
  function JsRem(a: int, b: int): (r: int)
    requires b > 0
    ensures a >= 0 ==> 0 <= r < b
    ensures a < 0 ==> -b < r <= 0
  {
    if a >= 0 then a % b else -((-a) % b)
  }

  /**
   * The remainder completes JavaScript's truncating division: the dividend is
   * the quotient rounded toward zero times the divisor, plus the remainder.
   */
  lemma JsRemValue(a: int, b: int)
    requires b > 0
    ensures a == (if a >= 0 then a / b else -((-a) / b)) * b + JsRem(a, b)
  {
    if a >= 0 {
      assert a == (a / b) * b + a % b;
    } else {
      assert -a == ((-a) / b) * b + (-a) % b;
    }
  }

  /**
   * `parseInt(text) || d`: an input that does not parse (`None`) or parses to
   * 0 is falsy and yields the default; any other parsed value is kept.
   */
  function OrDefault(v: Option<int>, d: int): (r: int)
    ensures v.Some? && v.value != 0 ==> r == v.value
    ensures v == None || v == Some(0) ==> r == d
  {
    if v.Some? && v.value != 0 then v.value else d
  }

  // ---------------------------------------------------------------------------
  // formatTime

  /** The text before the last ':' of a clock face. */
  function MinutesText(r: string): string
    requires |r| >= 3
  {
    r[..|r| - 3]
  }

  /** The two characters after the last ':' of a clock face. */
  function SecondsText(r: string): string
    requires |r| >= 3
  {
    r[|r| - 2..]
  }

  /** A clock face: digits, a ':' and exactly two digits. */
  predicate IsClockFace(r: string) {
    |r| >= 5 && r[|r| - 3] == ':' && AllDigits(MinutesText(r)) && AllDigits(SecondsText(r))
  }

  /** The number of seconds a clock face reads. */
  function ClockValue(r: string): int
    requires IsClockFace(r)
  {
    60 * DigitsValue(MinutesText(r)) + DigitsValue(SecondsText(r))
  }

  /**
   * `formatTime`: minutes `floor(t/60)` and seconds `t % 60`, each rendered in
   * decimal and left-padded with '0' to two places, joined by ':'. For t >= 0
   * the result is a clock face whose two digits after the ':' denote t % 60
   * (so 00..59) and whose digits before it denote t / 60, padded to two
   * places and otherwise without a leading zero; below 100 minutes it is
   * five characters long.
   */
  function FormatTime(t: int): (r: string)
    ensures t >= 0 ==>
      && IsClockFace(r)
      && DigitsValue(MinutesText(r)) == t / 60
      && DigitsValue(SecondsText(r)) == t % 60
      && (|MinutesText(r)| > 2 ==> MinutesText(r)[0] != '0')
    ensures 0 <= t < 6000 ==> |r| == 5
  {
    var minutes := PadStart2(IntToString(t / 60));
    var seconds := PadStart2(IntToString(JsRem(t, 60)));
    if t >= 0 then
      assert minutes == PadStart2(NatToString(t / 60));
      assert seconds == PadStart2(NatToString(t % 60));
      PaddedField(t / 60);
      PaddedField(t % 60);
      JoinedFields(minutes, seconds);
      minutes + ":" + seconds
    else
      minutes + ":" + seconds
  }

  /**
   * A number rendered and padded to two places: at least two digits denoting
   * it, exactly two below 100, and no leading zero beyond the padding.
   */
  lemma PaddedField(n: nat)
    ensures var p := PadStart2(NatToString(n));
      && |p| >= 2 && (n < 100 ==> |p| == 2) && AllDigits(p) && DigitsValue(p) == n
      && (|p| > 2 ==> p[0] != '0')
  {
    PaddedValue(NatToString(n));
  }

  /** Joining a field of two or more digits and a field of two digits with ':' gives a clock face of those fields. */
  lemma JoinedFields(minutes: string, seconds: string)
    requires |minutes| >= 2 && AllDigits(minutes)
    requires |seconds| == 2 && AllDigits(seconds)
    ensures var r := minutes + ":" + seconds;
      IsClockFace(r) && MinutesText(r) == minutes && SecondsText(r) == seconds
  {
    var r := minutes + ":" + seconds;
    assert MinutesText(r) == minutes;
    assert SecondsText(r) == seconds;
  }

  /** Reading back the clock face `formatTime` draws gives the seconds it was drawn from. */
  lemma ClockValueOfFormatTime(t: int)
    requires t >= 0
    ensures IsClockFace(FormatTime(t)) && ClockValue(FormatTime(t)) == t
  {
    var r := FormatTime(t);
    assert ClockValue(r) == 60 * (t / 60) + t % 60;
  }

  /** Distinct non-negative second counts render differently: the clock face loses nothing. */
  lemma FormatTimeInjective(t1: int, t2: int)
    requires t1 >= 0 && t2 >= 0
    requires FormatTime(t1) == FormatTime(t2)
    ensures t1 == t2
  {
    ClockValueOfFormatTime(t1);
    ClockValueOfFormatTime(t2);
  }

  // ---------------------------------------------------------------------------
  // Displayed seconds

  /**
   * The seconds the popup shows for a fetched record at clock reading `now`:
   * between fetches it counts down locally by the rounded elapsed seconds,
   * never below 0, but only while running with a real checkpoint
   * (`lastTickTime > 0`); otherwise it shows the record's own value.
   */
  function DisplaySeconds(s: TimerState, now: int): (d: int)
    ensures s.remainingSeconds >= 0 ==> 0 <= d <= s.remainingSeconds
    ensures d != s.remainingSeconds ==>
              s.runState == Running && s.lastTickTime > 0 && RoundedElapsed(now, s.lastTickTime) > 0
  {
    var displaySeconds := s.remainingSeconds;
    if s.runState == Running && s.lastTickTime > 0 then
      var elapsed := RoundedElapsed(now, s.lastTickTime);
      if elapsed > 0 then
        if s.remainingSeconds - elapsed > 0 then s.remainingSeconds - elapsed else 0
      else displaySeconds
    else displaySeconds
  }

  /** The popup asks the background for a fresh record when the running display reaches 0. */
  predicate NeedsRefetch(s: TimerState, now: int) {
    DisplaySeconds(s, now) == 0 && s.runState == Running
  }

  /**
   * The local countdown shows what the background's tick would leave at the
   * same clock reading, short of expiry.
   */
  lemma DisplayAgreesWithTick(s: TimerState, now: int)
    requires s.runState == Running && s.lastTickTime > 0
    ensures !Expires(s, now) ==> DisplaySeconds(s, now) == Tick(s, now).state.remainingSeconds
  {
    if RoundedElapsed(now, s.lastTickTime) > 0 && !Expires(s, now) {
      assert Tick(s, now).state == Reconciled(s, now);
    }
  }

  /**
   * For a running timer with time left, the popup re-fetches exactly when the
   * background's tick at the same clock reading would run the phase out.
   */
  lemma RefetchExactlyAtExpiry(s: TimerState, now: int)
    requires s.runState == Running && s.lastTickTime > 0 && s.remainingSeconds > 0
    ensures NeedsRefetch(s, now) <==> Expires(s, now)
  {
  }

  // ---------------------------------------------------------------------------
  // Custom duration

  /** The minute and second fields shown for a custom duration: `floor(total/60)` and `total % 60`. */
  function SplitCustom(total: int): (r: (int, int))
    ensures total >= 0 ==> r.0 >= 0 && 0 <= r.1 < 60 && r.0 * 60 + r.1 == total
  {
    (total / 60, JsRem(total, 60))
  }

  /**
   * `updateCustomVals`: unparsable fields count as 0, and a `set_mode` to
   * custom is sent only when minutes*60 + seconds is positive.
   */
  function CustomRequest(mins: Option<int>, secs: Option<int>): (r: Option<Request>)
    ensures r.Some? <==> OrDefault(mins, 0) * 60 + OrDefault(secs, 0) > 0
    ensures r.Some? ==> r.value.SetMode? && r.value.mode == Custom && r.value.totalSeconds > 0
                        && Admissible(r.value)
    ensures r.Some? ==> r.value.totalSeconds == OrDefault(mins, 0) * 60 + OrDefault(secs, 0)
  {
    var total := OrDefault(mins, 0) * 60 + OrDefault(secs, 0);
    if total > 0 then Some(SetMode(Custom, total)) else None
  }

  /**
   * Editing nothing in the custom fields round-trips: submitting the fields a
   * positive duration is shown with asks for exactly that duration, and the
   * background then holds it, stopped, as both remaining and total.
   */
  lemma {:induction false} CustomFieldsRoundTrip(s: TimerState, total: int, now: int)
    requires total > 0
    ensures var fields := SplitCustom(total);
      CustomRequest(Some(fields.0), Some(fields.1)) == Some(SetMode(Custom, total))
    ensures var t := Handle(s, SetMode(Custom, total), now).state;
      t.mode == Custom && t.runState == Stopped && t.remainingSeconds == t.totalSeconds == total
  {
    var fields := SplitCustom(total);
    assert OrDefault(Some(fields.0), 0) * 60 + OrDefault(Some(fields.1), 0) == total;
  }

  // ---------------------------------------------------------------------------
  // Tabata inputs

  const DefaultWorkSecs := 20
  const DefaultRestSecs := 10
  const DefaultMaxRounds := 8

  /**
   * `updateTabataVals`: each field that is empty, unparsable or 0 becomes its
   * default (work 20, rest 10, rounds 8); any other parsed value, negative
   * ones included, is sent unchanged. So no zero ever reaches the background.
   */
  function TabataRequest(work: Option<int>, rest: Option<int>, rounds: Option<int>): (r: Request)
    ensures r.SetTabataConfig?
    ensures r.workSecs != 0 && r.restSecs != 0 && r.maxRounds != 0
    ensures r.workSecs == (if work.Some? && work.value != 0 then work.value else DefaultWorkSecs)
    ensures r.restSecs == (if rest.Some? && rest.value != 0 then rest.value else DefaultRestSecs)
    ensures r.maxRounds == (if rounds.Some? && rounds.value != 0 then rounds.value else DefaultMaxRounds)
  {
    SetTabataConfig(OrDefault(work, DefaultWorkSecs), OrDefault(rest, DefaultRestSecs),
                    OrDefault(rounds, DefaultMaxRounds))
  }

  /**
   * Fields left as they are, or holding non-negative numbers, give an
   * admissible configuration, and a stopped Tabata timer restarts its schedule
   * from round 1 with positive phase lengths.
   */
  lemma TabataRequestAdmissible(s: TimerState, work: Option<int>, rest: Option<int>, rounds: Option<int>, now: int)
    requires work.Some? ==> work.value >= 0
    requires rest.Some? ==> rest.value >= 0
    requires rounds.Some? ==> rounds.value >= 0
    requires s.mode == Tabata && s.runState == Stopped
    ensures Admissible(TabataRequest(work, rest, rounds))
    ensures var t := Handle(s, TabataRequest(work, rest, rounds), now).state;
      && t.tabataWorkSecs > 0 && t.tabataRestSecs > 0 && RoundInRange(t)
      && t.tabataRound == 1 && t.tabataPhase == Work && t.runState == Stopped
      && t.remainingSeconds == t.totalSeconds == t.tabataWorkSecs
  {
  }

  /** A negative number typed into the work field is passed through and breaks the background's invariant. */
  lemma NegativeWorkPassesThrough()
    ensures var req := TabataRequest(Some(-5), None, None);
      && req.workSecs == -5
      && !Admissible(req)
      && !Inv(Handle(InitialState.(mode := Tabata), req, 0).state)
  {
  }

  // ---------------------------------------------------------------------------
  // Mode buttons

  /** The `MODES` table: the fixed durations of the three preset modes. */
  function PresetSeconds(m: Mode): (secs: int)
    requires m == Focus || m == ShortBreak || m == LongBreak
    ensures secs > 0
  {
    match m
    case Focus => 25 * 60
    case ShortBreak => 5 * 60
    case LongBreak => 15 * 60
  }

  /**
   * The `set_mode` a mode button sends: Tabata asks for the current work
   * length, custom keeps the current total when already in custom mode and
   * asks for 600 s otherwise, and the presets ask for their fixed duration.
   */
  function ModeClick(clicked: Mode, current: TimerState): (r: Request)
    ensures r.SetMode? && r.mode == clicked
    ensures clicked == Tabata ==> r.totalSeconds == current.tabataWorkSecs
    ensures clicked == Custom ==> r.totalSeconds == if current.mode == Custom then current.totalSeconds else 600
    ensures clicked == Focus ==> r.totalSeconds == 1500
    ensures clicked == ShortBreak ==> r.totalSeconds == 300
    ensures clicked == LongBreak ==> r.totalSeconds == 900
  {
    match clicked
    case Tabata => SetMode(Tabata, current.tabataWorkSecs)
    case Custom => SetMode(Custom, if current.mode == Custom then current.totalSeconds else 10 * 60)
    case _ => SetMode(clicked, PresetSeconds(clicked))
  }

  /**
   * From a record that satisfies the invariant, every mode button sends an
   * admissible request that leaves the timer stopped at the full duration of
   * the clicked mode; switching to custom from custom keeps the duration, and
   * switching to Tabata starts round 1's work phase.
   */
  lemma ModeClickOutcome(clicked: Mode, s: TimerState, now: int)
    requires Inv(s)
    ensures Admissible(ModeClick(clicked, s))
    ensures var t := Handle(s, ModeClick(clicked, s), now).state;
      && Inv(t)
      && t.mode == clicked
      && t.runState == Stopped
      && t.remainingSeconds == t.totalSeconds
      && (clicked == Custom && s.mode == Custom ==> t.totalSeconds == s.totalSeconds)
      && (clicked == Custom && s.mode != Custom ==> t.totalSeconds == 600)
      && (clicked == Focus ==> t.totalSeconds == 1500)
      && (clicked == ShortBreak ==> t.totalSeconds == 300)
      && (clicked == LongBreak ==> t.totalSeconds == 900)
      && (clicked == Tabata ==> t.totalSeconds == s.tabataWorkSecs && t.tabataRound == 1 && t.tabataPhase == Work)
  {
  }
}

=== FILE: timer.dfy ===
/**
 * The background timer engine of the extension as pure transitions on a value
 * of its state record: the periodic tick that reconciles wall-clock time and
 * advances Tabata phases, and the seven commands of the message listener.
 * Wall-clock time is the parameter `now` (milliseconds); calls into the
 * browser (alert sound, notifications, badge, alarm schedule) are returned as
 * a list of effects in the order the source issues them.
 */
module Timer {
  import opened Format

  datatype RunState = Stopped | Running | Paused
  datatype Mode = Focus | ShortBreak | LongBreak | Custom | Tabata
  datatype Phase = Work | Rest

  /** The engine's single state record. */
  datatype TimerState = TimerState(
    runState: RunState,
    mode: Mode,
    remainingSeconds: int,
    totalSeconds: int,
    tabataRound: int,
    tabataPhase: Phase,
    tabataWorkSecs: int,
    tabataRestSecs: int,
    tabataMaxRounds: int,
    lastTickTime: int)

  /** The state the engine starts with: a stopped 25-minute focus timer and Tabata 20/10 x 8. */
  const InitialState := TimerState(Stopped, Focus, 25 * 60, 25 * 60, 1, Work, 20, 10, 8, 0)

  /** What the engine asks the browser to do. */
  datatype Effect =
    | PlayAlert
    | Notify(notice: Notice)
    | SetBadgeText(text: string)
    | SetBadgeColor(color: string)
    | ArmTickAlarm
    | ClearTickAlarm

  /** The system notifications the engine raises. */
  datatype Notice =
    | FocusDone
    | BreakOver
    | TimerComplete
    | TabataRest(round: int, restSecs: int)
    | TabataWork(round: int)
    | TabataComplete(maxRounds: int)

  /** The commands of the message listener. */
  datatype Request =
    | GetState
    | GetStateRaw
    | SetMode(mode: Mode, totalSeconds: int)
    | SetTabataConfig(workSecs: int, restSecs: int, maxRounds: int)
    | Start
    | Pause
    | Reset

  /** The listener's answer: the state record, or `{success: true}`. */
  datatype Reply = StateReply(state: TimerState) | Success

  datatype Outcome = Outcome(state: TimerState, effects: seq<Effect>)

  const RestColor := "#9ec5fe"
  const WorkColor := "#ff85a9"

  /** The number of alert sounds among some effects. */
  function Alerts(effects: seq<Effect>): nat {
    multiset(effects)[PlayAlert]
  }

  /** No alert sound and no notification. */
  predicate Silent(effects: seq<Effect>) {
    Alerts(effects) == 0 && forall e :: e in effects ==> !e.Notify?
  }

  /** Notification `n` is raised once, and no other notification is. */
  predicate OnlyNotice(effects: seq<Effect>, n: Notice) {
    multiset(effects)[Notify(n)] == 1 && forall e :: e in effects && e.Notify? ==> e == Notify(n)
  }

  // ---------------------------------------------------------------------------
  // Time reconciliation

  /**
   * `Math.round((now - last) / 1000)`: the whole seconds nearest to the
   * elapsed milliseconds, halves rounded up.
   */
  function RoundedElapsed(now: int, last: int): (e: int)
    ensures 1000 * e - 500 <= now - last < 1000 * e + 500
  {
    (now - last + 500) / 1000
  }

  // ---------------------------------------------------------------------------
  // The toolbar badge

  /**
   * The badge text: empty exactly when not running; while running, the whole
   * minutes left in decimal without a leading zero, or "<1" below a minute.
   */
  function BadgeText(s: TimerState): (t: string)
    ensures t == "" <==> s.runState != Running
    ensures s.runState == Running && s.remainingSeconds >= 60 ==>
              AllDigits(t) && DigitsValue(t) == s.remainingSeconds / 60 && t[0] != '0'
    ensures s.runState == Running && s.remainingSeconds < 60 ==> t == "<1"
  {
    if s.runState == Running then
      var mins := s.remainingSeconds / 60;
      if mins > 0 then IntToString(mins) else "<1"
    else ""
  }

  /** The badge colour: the rest colour exactly during a Tabata rest, the work colour otherwise. */
  function BadgeColor(s: TimerState): (c: string)
    ensures c == RestColor <==> s.mode == Tabata && s.tabataPhase == Rest
    ensures c != RestColor ==> c == WorkColor
  {
    if s.mode == Tabata && s.tabataPhase == Rest then RestColor else WorkColor
  }

  /** `updateBadge`: one text update, then a colour update only while running; never a sound or a notification. */
  function BadgeEffects(s: TimerState): (r: seq<Effect>)
    ensures |r| >= 1 && r[0].SetBadgeText?
  {
    if s.runState == Running then [SetBadgeText(BadgeText(s)), SetBadgeColor(BadgeColor(s))]
    else [SetBadgeText("")]
  }

  /**
   * The badge is empty exactly when the timer is not running; while running
   * it shows the whole minutes left in decimal, or "<1" below one minute, in
   * the rest colour exactly during a Tabata rest.
   */
  lemma BadgeShows(s: TimerState)
    ensures var r := BadgeEffects(s);
      && (r[0].text == "" <==> s.runState != Running)
      && (s.runState != Running ==> |r| == 1)
      && (s.runState == Running && s.remainingSeconds >= 60 ==>
            AllDigits(r[0].text) && DigitsValue(r[0].text) == s.remainingSeconds / 60 && r[0].text[0] != '0')
      && (s.runState == Running && s.remainingSeconds < 60 ==> r[0].text == "<1")
      && (s.runState == Running ==>
            |r| == 2 && r[1].SetBadgeColor? &&
            (r[1].color == RestColor <==> s.mode == Tabata && s.tabataPhase == Rest))
  {
  }

  // ---------------------------------------------------------------------------
  // The tick

  /** The notification that ends a non-Tabata timer: one for focus, one shared by both breaks, one for the rest. */
  function CompletionNotice(m: Mode): (n: Notice)
    ensures n == FocusDone <==> m == Focus
    ensures n == BreakOver <==> m == ShortBreak || m == LongBreak
    ensures n == TimerComplete <==> m == Custom || m == Tabata
  {
    match m
    case Focus => FocusDone
    case ShortBreak => BreakOver
    case LongBreak => BreakOver
    case _ => TimerComplete
  }

  /** The title of each notification. */
  function NoticeTitle(n: Notice): string {
    match n
    case FocusDone => "Focus Done"
    case BreakOver => "Break Over"
    case TimerComplete => "Timer Complete"
    case TabataRest(_, _) => "Tabata Rest"
    case TabataWork(_) => "Tabata Work"
    case TabataComplete(_) => "Tabata Complete!"
  }

  /** Each kind of notification has its own title, so the title tells the kinds apart. */
  lemma NoticeTitleNamesKind(n1: Notice, n2: Notice)
    ensures NoticeTitle(n1) == NoticeTitle(n2) <==>
              && (n1.FocusDone? <==> n2.FocusDone?)
              && (n1.BreakOver? <==> n2.BreakOver?)
              && (n1.TimerComplete? <==> n2.TimerComplete?)
              && (n1.TabataRest? <==> n2.TabataRest?)
              && (n1.TabataWork? <==> n2.TabataWork?)
              && (n1.TabataComplete? <==> n2.TabataComplete?)
  {
  }

  /** The message of each notification; the Tabata ones carry the round, the rest length or the number of rounds. */
  function NoticeMessage(n: Notice): string {
    match n
    case FocusDone => "Take a break!"
    case BreakOver => "Ready to focus?"
    case TimerComplete => "Time is up!"
    case TabataRest(round, rest) => "Round " + IntToString(round) + " complete. Rest for " + IntToString(rest) + "s!"
    case TabataWork(round) => "Round " + IntToString(round) + " started. Go!"
    case TabataComplete(rounds) => "Great job! You finished " + IntToString(rounds) + " rounds."
  }

  /** Subtract the rounded elapsed seconds, never going below 0, and move the checkpoint to `now`. */
  function Reconciled(s: TimerState, now: int): (r: TimerState)
    ensures r == s.(remainingSeconds := r.remainingSeconds, lastTickTime := now)
    ensures r.remainingSeconds == 0 <==> RoundedElapsed(now, s.lastTickTime) >= s.remainingSeconds
    ensures r.remainingSeconds > 0 ==> r.remainingSeconds == s.remainingSeconds - RoundedElapsed(now, s.lastTickTime)
    ensures r.remainingSeconds >= 0
  {
    var left := s.remainingSeconds - RoundedElapsed(now, s.lastTickTime);
    s.(remainingSeconds := if left < 0 then 0 else left, lastTickTime := now)
  }

  /** Whether a tick at `now` runs the timer out: it is running and the rounded elapsed seconds are positive and reach what remains. */
  predicate Expires(s: TimerState, now: int) {
    var e := RoundedElapsed(now, s.lastTickTime);
    s.runState == Running && e > 0 && e >= s.remainingSeconds
  }

  /**
   * The state after a command or tick together with the browser calls it made
   * before `updateBadge`, followed by the badge update for that state.
   */
  function WithBadge(s: TimerState, before: seq<Effect>): Outcome {
    Outcome(s, before + BadgeEffects(s))
  }

  /** The state the phase-advance policy leaves, for a running state whose remaining time has reached 0. */
  function ExpiredState(s: TimerState, now: int): (r: TimerState)
    ensures r.mode == s.mode && SameConfig(s, r) && r.remainingSeconds == r.totalSeconds
    ensures EndsRun(s) ==> r.runState == Stopped
    ensures !EndsRun(s) ==> r.runState == s.runState && r.lastTickTime == now && r.tabataPhase != s.tabataPhase
    ensures s.mode != Tabata ==> r.totalSeconds == s.totalSeconds && r.tabataRound == s.tabataRound && r.tabataPhase == s.tabataPhase
    ensures s.mode == Tabata ==> r.totalSeconds == if r.tabataPhase == Work then s.tabataWorkSecs else s.tabataRestSecs
    ensures s.mode == Tabata && EndsRun(s) ==> r.tabataRound == 1 && r.tabataPhase == Work
  {
    if s.mode == Tabata then
      if s.tabataPhase == Work then
        s.(tabataPhase := Rest, remainingSeconds := s.tabataRestSecs,
           totalSeconds := s.tabataRestSecs, lastTickTime := now)
      else if s.tabataRound + 1 > s.tabataMaxRounds then
        s.(runState := Stopped, remainingSeconds := s.tabataWorkSecs,
           totalSeconds := s.tabataWorkSecs, tabataRound := 1, tabataPhase := Work)
      else
        s.(tabataRound := s.tabataRound + 1, tabataPhase := Work,
           remainingSeconds := s.tabataWorkSecs, totalSeconds := s.tabataWorkSecs,
           lastTickTime := now)
    else
      s.(runState := Stopped, remainingSeconds := s.totalSeconds)
  }

  /** Whether the expiry stops the timer: outside Tabata, or after the last Tabata rest. */
  predicate EndsRun(s: TimerState) {
    s.mode != Tabata || (s.tabataPhase == Rest && s.tabataRound + 1 > s.tabataMaxRounds)
  }

  /** The notification an expiry raises, decided by the state before the tick. */
  function ExpiryNotice(s: TimerState): (n: Notice)
    ensures s.mode != Tabata ==> n == CompletionNotice(s.mode)
    ensures n.TabataRest? <==> s.mode == Tabata && s.tabataPhase == Work
    ensures n.TabataComplete? <==> s.mode == Tabata && EndsRun(s)
    ensures n.TabataWork? <==> s.mode == Tabata && s.tabataPhase == Rest && !EndsRun(s)
    ensures n.TabataWork? ==> n.round == s.tabataRound + 1 <= s.tabataMaxRounds
    ensures n.TabataRest? ==> n == TabataRest(s.tabataRound, s.tabataRestSecs)
    ensures n.TabataComplete? ==> n.maxRounds == s.tabataMaxRounds
  {
    if s.mode != Tabata then CompletionNotice(s.mode)
    else if s.tabataPhase == Work then TabataRest(s.tabataRound, s.tabataRestSecs)
    else if s.tabataRound + 1 > s.tabataMaxRounds then TabataComplete(s.tabataMaxRounds)
    else TabataWork(s.tabataRound + 1)
  }

  /**
   * The phase-advance policy: in every branch an alert, then the branch's
   * notification, then cancelling the tick alarm when the timer stops, then
   * the badge update.
   */
  function Expire(s: TimerState, now: int): (o: Outcome)
    ensures |o.effects| >= 3 && o.effects[0] == PlayAlert && o.effects[1] == Notify(ExpiryNotice(s))
    ensures ClearTickAlarm in o.effects <==> EndsRun(s)
    ensures |o.effects| >= |BadgeEffects(o.state)| + 2
    ensures o.effects[|o.effects| - |BadgeEffects(o.state)|..] == BadgeEffects(o.state)
  {
    WithBadge(ExpiredState(s, now), [PlayAlert, Notify(ExpiryNotice(s))] + if EndsRun(s) then [ClearTickAlarm] else [])
  }

  /**
   * `handleTick`: nothing unless running and at least half a second has
   * passed; otherwise subtract the rounded elapsed seconds (never below 0),
   * move the checkpoint to `now`, and apply the phase-advance policy when
   * nothing remains. Configuration and mode never change.
   */
  function Tick(s: TimerState, now: int): (o: Outcome)
    ensures Inv(s) ==> Inv(o.state)
    ensures o.state.mode == s.mode && SameConfig(s, o.state)
    ensures o.state.tabataRound >= s.tabataRound || o.state.tabataRound == 1
  {
    if s.runState != Running then Outcome(s, [])
    else if RoundedElapsed(now, s.lastTickTime) <= 0 then Outcome(s, [])
    else
      var s' := Reconciled(s, now);
      if s'.remainingSeconds <= 0 then Expire(s', now)
      else WithBadge(s', [])
  }

  lemma BadgeIsSilent(s: TimerState)
    ensures Silent(BadgeEffects(s))
  {
  }

  lemma {:induction false} SilentAppend(a: seq<Effect>, b: seq<Effect>)
    requires Silent(a) && Silent(b)
    ensures Silent(a + b)
  {
    assert multiset(a + b) == multiset(a) + multiset(b);
    forall e | e in a + b
      ensures !e.Notify?
    {
      assert e in a || e in b;
    }
  }

  /** The calls of an expiry: the alert, the notification, perhaps the alarm cancellation, then the silent badge update. */
  lemma ExpireShape(s: TimerState, now: int)
    ensures exists rest :: Silent(rest) && Expire(s, now).effects == [PlayAlert, Notify(ExpiryNotice(s))] + rest
  {
    var o := Expire(s, now);
    var tail: seq<Effect> := if EndsRun(s) then [ClearTickAlarm] else [];
    BadgeIsSilent(o.state);
    SilentAppend(tail, BadgeEffects(o.state));
    assert o.effects == [PlayAlert, Notify(ExpiryNotice(s))] + (tail + BadgeEffects(o.state));
  }

  /** An alert and a notification followed by silent calls: one alert, and that notification only. */
  lemma AlertAndNotice(n: Notice, rest: seq<Effect>)
    requires Silent(rest)
    ensures Alerts([PlayAlert, Notify(n)] + rest) == 1
    ensures OnlyNotice([PlayAlert, Notify(n)] + rest, n)
  {
    var l := [PlayAlert, Notify(n)] + rest;
    assert Notify(n) !in rest;
    assert multiset(l) == multiset([PlayAlert, Notify(n)]) + multiset(rest);
    forall e | e in l && e.Notify?
      ensures e == Notify(n)
    {
      assert e in [PlayAlert, Notify(n)] || e in rest;
    }
  }

  /** An expiry sounds exactly one alert and raises exactly the notification ExpiryNotice names. */
  lemma ExpireAlertsOnce(s: TimerState, now: int)
    ensures Alerts(Expire(s, now).effects) == 1
    ensures OnlyNotice(Expire(s, now).effects, ExpiryNotice(s))
  {
    ExpireShape(s, now);
    var rest :| Silent(rest) && Expire(s, now).effects == [PlayAlert, Notify(ExpiryNotice(s))] + rest;
    AlertAndNotice(ExpiryNotice(s), rest);
  }

  /** A tick that runs the timer out sounds one alert and raises the notification ExpiryNotice names. */
  lemma TickAlertsOnExpiry(s: TimerState, now: int)
    requires Expires(s, now)
    ensures Alerts(Tick(s, now).effects) == 1 && OnlyNotice(Tick(s, now).effects, ExpiryNotice(s))
  {
    var s' := Reconciled(s, now);
    assert ExpiryNotice(s') == ExpiryNotice(s);
    assert Tick(s, now) == Expire(s', now);
    ExpireAlertsOnce(s', now);
  }

  /** Any other tick sounds nothing and raises no notification. */
  lemma TickSilentOtherwise(s: TimerState, now: int)
    requires !Expires(s, now)
    ensures Silent(Tick(s, now).effects)
  {
    if s.runState == Running && RoundedElapsed(now, s.lastTickTime) > 0 {
      BadgeIsSilent(Reconciled(s, now));
    }
  }

  // ---------------------------------------------------------------------------
  // The commands

  /** `get_state`: fold the elapsed seconds in only when they are positive and do not exceed what remains. */
  function ReconcileForQuery(s: TimerState, now: int): (r: TimerState)
    ensures Inv(s) ==> Inv(r)
    ensures 0 <= s.remainingSeconds ==> 0 <= r.remainingSeconds <= s.remainingSeconds
    ensures r == s.(remainingSeconds := r.remainingSeconds, lastTickTime := r.lastTickTime)
    ensures s.runState == Running && 0 < RoundedElapsed(now, s.lastTickTime) <= s.remainingSeconds ==>
              r.remainingSeconds == s.remainingSeconds - RoundedElapsed(now, s.lastTickTime) && r.lastTickTime == now
    ensures !(s.runState == Running && 0 < RoundedElapsed(now, s.lastTickTime) <= s.remainingSeconds) ==> r == s
  {
    if s.runState == Running then
      var e := RoundedElapsed(now, s.lastTickTime);
      if e > 0 && e <= s.remainingSeconds then
        s.(remainingSeconds := s.remainingSeconds - e, lastTickTime := now)
      else s
    else s
  }

  /** `set_mode`: always stopped; Tabata ignores the requested duration and starts round 1's work phase. */
  function SetModeState(s: TimerState, m: Mode, totalSeconds: int): (r: TimerState)
    ensures Inv(s) && (m == Tabata || totalSeconds >= 0) ==> Inv(r)
    ensures r.runState == Stopped && r.mode == m && r.remainingSeconds == r.totalSeconds && SameConfig(s, r)
    ensures m == Tabata ==> r.totalSeconds == s.tabataWorkSecs && r.tabataRound == 1 && r.tabataPhase == Work
    ensures m != Tabata ==> r.totalSeconds == totalSeconds && r.tabataRound == s.tabataRound && r.tabataPhase == s.tabataPhase
    ensures r.lastTickTime == s.lastTickTime
  {
    var s1 :=
      if m == Tabata then
        s.(mode := m, totalSeconds := s.tabataWorkSecs, remainingSeconds := s.tabataWorkSecs,
           tabataRound := 1, tabataPhase := Work)
      else
        s.(mode := m, totalSeconds := totalSeconds, remainingSeconds := totalSeconds);
    s1.(runState := Stopped)
  }

  /** `set_tabata_config`: store the three numbers; rewind the timer only for a stopped Tabata timer. */
  function SetTabataConfigState(s: TimerState, workSecs: int, restSecs: int, maxRounds: int): (r: TimerState)
    ensures Inv(s) && workSecs >= 0 && restSecs >= 0 ==> Inv(r)
    ensures r.runState == s.runState && r.mode == s.mode
    ensures r.tabataWorkSecs == workSecs && r.tabataRestSecs == restSecs && r.tabataMaxRounds == maxRounds
    ensures maxRounds >= 1 && (maxRounds >= s.tabataRound || (s.mode == Tabata && s.runState == Stopped))
                 && s.tabataRound >= 1
            ==> RoundInRange(r)
    ensures s.mode == Tabata && s.runState == Stopped ==>
              && r.remainingSeconds == r.totalSeconds == workSecs
              && r.tabataRound == 1 && r.tabataPhase == Work && r.lastTickTime == s.lastTickTime
    ensures !(s.mode == Tabata && s.runState == Stopped) ==>
              r == s.(tabataWorkSecs := workSecs, tabataRestSecs := restSecs, tabataMaxRounds := maxRounds)
  {
    var s1 := s.(tabataWorkSecs := workSecs, tabataRestSecs := restSecs, tabataMaxRounds := maxRounds);
    if s1.mode == Tabata && s1.runState == Stopped then
      s1.(totalSeconds := workSecs, remainingSeconds := workSecs, tabataRound := 1, tabataPhase := Work)
    else s1
  }

  /** `start`: resume what remains, or the whole duration if nothing remains; the checkpoint becomes `now`. */
  function StartState(s: TimerState, now: int): (r: TimerState)
    ensures Inv(s) ==> Inv(r)
    ensures r.runState == Running && r.lastTickTime == now
    ensures Inv(s) ==> r.remainingSeconds > 0 || r.totalSeconds == 0
    ensures s.remainingSeconds > 0 ==> r.remainingSeconds == s.remainingSeconds
    ensures s.remainingSeconds <= 0 ==> r.remainingSeconds == s.totalSeconds
    ensures r == s.(runState := Running, remainingSeconds := r.remainingSeconds, lastTickTime := now)
  {
    var s1 := if s.remainingSeconds <= 0 then s.(remainingSeconds := s.totalSeconds) else s;
    s1.(runState := Running, lastTickTime := now)
  }

  /** `pause`: like the query, subtracts only when 0 < elapsed <= remaining, but keeps the checkpoint; always ends paused. */
  function PauseState(s: TimerState, now: int): (r: TimerState)
    ensures Inv(s) ==> Inv(r)
    ensures 0 <= s.remainingSeconds ==> 0 <= r.remainingSeconds <= s.remainingSeconds
    ensures r == s.(runState := Paused, remainingSeconds := r.remainingSeconds)
    ensures s.runState == Running && 0 < RoundedElapsed(now, s.lastTickTime) <= s.remainingSeconds ==>
              r.remainingSeconds == s.remainingSeconds - RoundedElapsed(now, s.lastTickTime)
    ensures !(s.runState == Running && 0 < RoundedElapsed(now, s.lastTickTime) <= s.remainingSeconds) ==>
              r.remainingSeconds == s.remainingSeconds
  {
    var s1 :=
      if s.runState == Running then
        var e := RoundedElapsed(now, s.lastTickTime);
        if e > 0 && e <= s.remainingSeconds then s.(remainingSeconds := s.remainingSeconds - e) else s
      else s;
    s1.(runState := Paused)
  }

  /** `reset`: stopped, round 1, work phase, the whole duration again (the work duration in Tabata). */
  function ResetState(s: TimerState): (r: TimerState)
    ensures Inv(s) ==> Inv(r)
    ensures r.runState == Stopped && r.remainingSeconds == r.totalSeconds && r.tabataRound == 1 && r.tabataPhase == Work
    ensures r.mode == s.mode && SameConfig(s, r)
    ensures r.totalSeconds == if s.mode == Tabata then s.tabataWorkSecs else s.totalSeconds
    ensures r == s.(runState := Stopped, remainingSeconds := r.totalSeconds, totalSeconds := r.totalSeconds,
                    tabataRound := 1, tabataPhase := Work)
  {
    var s1 := s.(runState := Stopped);
    var s2 :=
      if s1.mode == Tabata then s1.(remainingSeconds := s1.tabataWorkSecs, totalSeconds := s1.tabataWorkSecs)
      else s1.(remainingSeconds := s1.totalSeconds);
    s2.(tabataRound := 1, tabataPhase := Work)
  }

  /** The message listener: the new state and the browser calls, in source order. */
  function Handle(s: TimerState, req: Request, now: int): (o: Outcome)
    ensures Inv(s) && Admissible(req) ==> Inv(o.state)
  {
    match req
    case GetState => Outcome(ReconcileForQuery(s, now), [])
    case GetStateRaw => Outcome(s, [])
    case SetMode(m, total) =>
      var s' := SetModeState(s, m, total);
      Outcome(s', BadgeEffects(s') + [ClearTickAlarm])
    case SetTabataConfig(w, r, n) => Outcome(SetTabataConfigState(s, w, r, n), [])
    case Start =>
      WithBadge(StartState(s, now), [ArmTickAlarm])
    case Pause =>
      WithBadge(PauseState(s, now), [ClearTickAlarm])
    case Reset =>
      var s' := ResetState(s);
      Outcome(s', BadgeEffects(s') + [ClearTickAlarm])
  }

  /** No command sounds an alert or raises a notification: only the tick does. */
  lemma CommandsAreSilent(s: TimerState, req: Request, now: int)
    ensures Silent(Handle(s, req, now).effects)
  {
    var o := Handle(s, req, now);
    BadgeIsSilent(o.state);
    if req.SetMode? || req.Reset? {
      SilentAppend(BadgeEffects(o.state), [ClearTickAlarm]);
    } else if req.Start? {
      SilentAppend([ArmTickAlarm], BadgeEffects(o.state));
    } else if req.Pause? {
      SilentAppend([ClearTickAlarm], BadgeEffects(o.state));
    }
  }

  /** What the listener sends back: the state record after the command for the two queries, `{success: true}` otherwise. */
  function ReplyTo(req: Request, after: TimerState): (r: Reply)
    ensures r.StateReply? <==> req.GetState? || req.GetStateRaw?
    ensures r.StateReply? ==> r.state == after
  {
    if req.GetState? || req.GetStateRaw? then StateReply(after) else Success
  }

  // ---------------------------------------------------------------------------
  // Invariants

  /** The safety invariant: 0 <= remaining <= total, round at least 1, non-negative phase lengths. */
  predicate Inv(s: TimerState) {
    && 0 <= s.remainingSeconds <= s.totalSeconds
    && 1 <= s.tabataRound
    && 0 <= s.tabataWorkSecs
    && 0 <= s.tabataRestSecs
  }

  /** Requests whose numbers keep the invariant: a non-negative custom duration and non-negative phase lengths. */
  predicate Admissible(req: Request) {
    && (req.SetMode? && req.mode != Tabata ==> req.totalSeconds >= 0)
    && (req.SetTabataConfig? ==> req.workSecs >= 0 && req.restSecs >= 0)
  }

  predicate SameConfig(s: TimerState, t: TimerState) {
    && t.tabataWorkSecs == s.tabataWorkSecs
    && t.tabataRestSecs == s.tabataRestSecs
    && t.tabataMaxRounds == s.tabataMaxRounds
  }

  /** The Tabata round lies within the configured number of rounds. */
  predicate RoundInRange(s: TimerState) {
    1 <= s.tabataRound <= s.tabataMaxRounds
  }
}

=== FILE: timer_properties.dfy ===
/**
 * What the timer engine promises, stated over the transitions of module
 * Timer: the tick's three expiry branches, how the commands relate to each
 * other and to the tick, the Tabata work/rest schedule, and the invariants
 * that hold along every run of ticks and commands.
 */
module TimerProperties {
  import opened Timer

  // ---------------------------------------------------------------------------
  // The tick

  /** A tick changes nothing unless the timer is running and the rounded elapsed seconds are positive. */
  lemma TickIdle(s: TimerState, now: int)
    requires s.runState != Running || RoundedElapsed(now, s.lastTickTime) <= 0
    ensures Tick(s, now) == Outcome(s, [])
  {
  }

  /**
   * Short of expiry, a tick takes exactly the rounded elapsed seconds off,
   * moves the checkpoint to `now`, changes nothing else and only updates the
   * badge.
   */
  lemma TickCountsDown(s: TimerState, now: int)
    requires s.runState == Running
    requires 0 < RoundedElapsed(now, s.lastTickTime) < s.remainingSeconds
    ensures var t := s.(remainingSeconds := s.remainingSeconds - RoundedElapsed(now, s.lastTickTime),
                        lastTickTime := now);
      Tick(s, now) == Outcome(t, BadgeEffects(t))
  {
  }

  /**
   * Outside Tabata, expiry stops the timer and rewinds it to its full
   * duration, sounds one alert, raises the mode's notification ("Focus Done",
   * "Break Over" for both breaks, "Timer Complete" otherwise) and cancels the
   * tick alarm.
   */
  lemma TickFinishesTimer(s: TimerState, now: int)
    requires Expires(s, now) && s.mode != Tabata
    ensures var o := Tick(s, now);
      && o.state.runState == Stopped
      && o.state.remainingSeconds == o.state.totalSeconds == s.totalSeconds
      && o.state.mode == s.mode
      && o.state.tabataRound == s.tabataRound && o.state.tabataPhase == s.tabataPhase
      && SameConfig(s, o.state)
      && o.state.lastTickTime == now
      && Alerts(o.effects) == 1
      && OnlyNotice(o.effects, CompletionNotice(s.mode))
      && ClearTickAlarm in o.effects
    ensures NoticeTitle(CompletionNotice(s.mode)) ==
              if s.mode == Focus then "Focus Done"
              else if s.mode == ShortBreak || s.mode == LongBreak then "Break Over"
              else "Timer Complete"
  {
    TickAlertsOnExpiry(s, now);
    var o := Tick(s, now);
    assert o.effects[2] == ClearTickAlarm;
  }

  /**
   * Expiry of a Tabata work phase starts the rest phase of the same round:
   * still running, remaining and total both the rest length whatever the
   * overshoot, checkpoint at `now`, one alert and the "Tabata Rest"
   * notification, and the badge ends in the rest colour.
   */
  lemma TickEndsWorkPhase(s: TimerState, now: int)
    requires Expires(s, now) && s.mode == Tabata && s.tabataPhase == Work
    ensures var o := Tick(s, now);
      && o.state.runState == Running
      && o.state.tabataPhase == Rest
      && o.state.tabataRound == s.tabataRound
      && o.state.remainingSeconds == o.state.totalSeconds == s.tabataRestSecs
      && o.state.lastTickTime == now
      && Alerts(o.effects) == 1
      && OnlyNotice(o.effects, TabataRest(s.tabataRound, s.tabataRestSecs))
      && o.effects[|o.effects| - 1] == SetBadgeColor(RestColor)
  {
    TickAlertsOnExpiry(s, now);
  }

  /**
   * Expiry of a Tabata rest phase moves to the next round. Past the last
   * round the timer stops and rewinds to round 1's work phase; otherwise it
   * keeps running in the next round's work phase. One alert either way.
   */
  lemma TickEndsRestPhase(s: TimerState, now: int)
    requires Expires(s, now) && s.mode == Tabata && s.tabataPhase == Rest
    ensures var o := Tick(s, now);
      && o.state.tabataPhase == Work
      && o.state.remainingSeconds == o.state.totalSeconds == s.tabataWorkSecs
      && o.state.lastTickTime == now
      && SameConfig(s, o.state)
      && Alerts(o.effects) == 1
      && (s.tabataRound + 1 > s.tabataMaxRounds ==>
            && o.state.runState == Stopped
            && o.state.tabataRound == 1
            && OnlyNotice(o.effects, TabataComplete(s.tabataMaxRounds)))
      && (s.tabataRound + 1 <= s.tabataMaxRounds ==>
            && o.state.runState == Running
            && o.state.tabataRound == s.tabataRound + 1
            && OnlyNotice(o.effects, TabataWork(s.tabataRound + 1)))
  {
    TickAlertsOnExpiry(s, now);
  }

  /** Short of expiry, a tick never adds time and never changes the run state. */
  lemma TickNeverAddsTime(s: TimerState, now: int)
    requires !Expires(s, now)
    ensures Tick(s, now).state.remainingSeconds <= s.remainingSeconds
    ensures Tick(s, now).state.runState == s.runState
  {
  }

  /** The Tabata round stays within 1..maxRounds across a tick. */
  lemma TickKeepsRoundInRange(s: TimerState, now: int)
    requires RoundInRange(s)
    ensures RoundInRange(Tick(s, now).state)
  {
  }

  // ---------------------------------------------------------------------------
  // The commands

  /**
   * Every command keeps the round within 1..maxRounds, except a
   * configuration with maxRounds < 1, or one that lowers the maximum below
   * the current round on a timer that is not a stopped Tabata timer (only
   * that timer is rewound to round 1).
   */
  lemma HandleKeepsRoundInRange(s: TimerState, req: Request, now: int)
    requires RoundInRange(s)
    requires req.SetTabataConfig? ==>
               req.maxRounds >= 1 && (req.maxRounds >= s.tabataRound || (s.mode == Tabata && s.runState == Stopped))
    ensures RoundInRange(Handle(s, req, now).state)
  {
  }

  /** The exception: configuring 3 rounds while round 5 of 8 runs leaves the round above the maximum. */
  lemma ConfigWhileRunningLeavesRoundAboveMax()
    ensures var s := InitialState.(mode := Tabata, runState := Running, tabataRound := 5);
      RoundInRange(s) && !RoundInRange(Handle(s, SetTabataConfig(20, 10, 3), 0).state)
  {
  }

  /** `get_state` twice at the same instant answers the same as once. */
  lemma QueryIsIdempotent(s: TimerState, now: int)
    ensures ReconcileForQuery(ReconcileForQuery(s, now), now) == ReconcileForQuery(s, now)
  {
  }

  /**
   * `get_state` agrees with the tick short of expiry; when the elapsed
   * seconds exceed what remains it leaves the record untouched and leaves
   * expiry to the tick.
   */
  lemma QueryAgreesWithTick(s: TimerState, now: int)
    requires s.runState == Running
    ensures 0 < RoundedElapsed(now, s.lastTickTime) < s.remainingSeconds ==>
              ReconcileForQuery(s, now) == Tick(s, now).state
    ensures RoundedElapsed(now, s.lastTickTime) > s.remainingSeconds >= 0 ==>
              ReconcileForQuery(s, now) == s && Expires(s, now)
  {
  }

  /**
   * Pausing keeps the progress made: the pause takes off exactly the rounded
   * elapsed seconds when they are positive and do not exceed what remains,
   * and nothing otherwise; a later start resumes from exactly what the pause
   * left whenever something is left, and from the full total when the pause
   * left 0.
   */
  lemma PauseThenStartKeepsProgress(s: TimerState, pausedAt: int, resumedAt: int)
    requires s.runState == Running && s.remainingSeconds >= 0
    ensures var p := PauseState(s, pausedAt);
      var e := RoundedElapsed(pausedAt, s.lastTickTime);
      && p.runState == Paused
      && (0 < e <= s.remainingSeconds ==> p.remainingSeconds == s.remainingSeconds - e)
      && (!(0 < e <= s.remainingSeconds) ==> p.remainingSeconds == s.remainingSeconds)
      && (p.remainingSeconds > 0 ==> StartState(p, resumedAt).remainingSeconds == p.remainingSeconds)
      && (p.remainingSeconds == 0 ==> StartState(p, resumedAt).remainingSeconds == s.totalSeconds)
      && StartState(p, resumedAt).lastTickTime == resumedAt
  {
  }

  /** After a non-Tabata timer completes, `start` begins a fresh countdown of the full duration. */
  lemma StartAfterCompletionIsFresh(s: TimerState, now: int, later: int)
    requires Expires(s, now) && s.mode != Tabata
    ensures var t := StartState(Tick(s, now).state, later);
      t.runState == Running && t.remainingSeconds == t.totalSeconds == s.totalSeconds
  {
  }

  /** Switching to Tabata ignores the requested duration: it starts round 1's work phase. */
  lemma SetModeTabataIgnoresDuration(s: TimerState, total1: int, total2: int)
    ensures SetModeState(s, Tabata, total1) == SetModeState(s, Tabata, total2)
    ensures var t := SetModeState(s, Tabata, total1);
      t.remainingSeconds == t.totalSeconds == s.tabataWorkSecs && t.tabataRound == 1 && t.tabataPhase == Work
  {
  }

  /** Resetting twice is resetting once. */
  lemma ResetIsIdempotent(s: TimerState)
    ensures ResetState(ResetState(s)) == ResetState(s)
  {
  }

  // ---------------------------------------------------------------------------
  // The Tabata schedule

  /** A running Tabata timer with its round in range and non-negative phase lengths. */
  predicate TabataRunning(s: TimerState) {
    && s.mode == Tabata
    && s.runState == Running
    && RoundInRange(s)
    && s.tabataWorkSecs >= 0
    && s.tabataRestSecs >= 0
  }

  /** How many phases of the workout lie behind: round r's work phase is 2(r-1), its rest phase 2(r-1)+1. */
  function Position(s: TimerState): int {
    2 * (s.tabataRound - 1) + if s.tabataPhase == Rest then 1 else 0
  }

  /** A clock reading at which the next tick runs the current phase out. */
  function DueTime(s: TimerState): int {
    s.lastTickTime + 1000 * if s.remainingSeconds > 0 then s.remainingSeconds else 1
  }

  lemma DueTimeExpires(s: TimerState)
    requires s.runState == Running
    ensures Expires(s, DueTime(s))
  {
    var m := if s.remainingSeconds > 0 then s.remainingSeconds else 1;
    var e := RoundedElapsed(DueTime(s), s.lastTickTime);
    assert 1000 * e - 500 <= 1000 * m < 1000 * e + 500;
  }

  /** The state after `k` ticks, each one at the moment the current phase runs out. */
  function RunPhases(s: TimerState, k: nat): TimerState
    decreases k
  {
    if k == 0 then s else RunPhases(Tick(s, DueTime(s)).state, k - 1)
  }

  /** The phase length a Tabata state's current phase has in full. */
  function PhaseLength(s: TimerState): int {
    if s.tabataPhase == Work then s.tabataWorkSecs else s.tabataRestSecs
  }

  /** The full-length phase that follows position p, or the rewound, stopped timer after the last one. */
  predicate NextPhase(s: TimerState, t: TimerState) {
    && SameConfig(s, t)
    && t.mode == Tabata
    && (Position(s) + 1 < 2 * s.tabataMaxRounds ==>
          && TabataRunning(t)
          && Position(t) == Position(s) + 1
          && t.remainingSeconds == t.totalSeconds == PhaseLength(t))
    && (Position(s) + 1 >= 2 * s.tabataMaxRounds ==>
          && t.runState == Stopped
          && t.tabataRound == 1
          && t.tabataPhase == Work
          && t.remainingSeconds == t.totalSeconds == s.tabataWorkSecs)
  }

  /** One expiry of a running Tabata timer moves it one phase on. */
  lemma TabataStep(s: TimerState)
    requires TabataRunning(s)
    ensures NextPhase(s, Tick(s, DueTime(s)).state)
  {
    DueTimeExpires(s);
    if s.tabataPhase == Work {
      TickEndsWorkPhase(s, DueTime(s));
    } else {
      TickEndsRestPhase(s, DueTime(s));
    }
  }

  /**
   * Driving a running Tabata timer from phase position p through its phases:
   * after k < 2*maxRounds - p expiries it is still running at position p + k,
   * in a phase of full length; after exactly 2*maxRounds - p it has stopped,
   * rewound to round 1's work phase. So the phases alternate work, rest,
   * work, ... and the round grows by one at each rest-to-work boundary.
   */
  lemma {:induction false} TabataSchedule(s: TimerState, k: nat)
    requires TabataRunning(s)
    requires k <= 2 * s.tabataMaxRounds - Position(s)
    ensures var t := RunPhases(s, k);
      && SameConfig(s, t)
      && (k < 2 * s.tabataMaxRounds - Position(s) ==>
            && TabataRunning(t)
            && Position(t) == Position(s) + k
            && (k > 0 ==> t.remainingSeconds == t.totalSeconds == PhaseLength(t)))
      && (k == 2 * s.tabataMaxRounds - Position(s) ==>
            && t.mode == Tabata
            && t.runState == Stopped
            && t.tabataRound == 1
            && t.tabataPhase == Work
            && t.remainingSeconds == t.totalSeconds == s.tabataWorkSecs)
    decreases k
  {
    if k > 0 {
      var s1 := Tick(s, DueTime(s)).state;
      TabataStep(s);
      assert RunPhases(s, k) == RunPhases(s1, k - 1);
      if Position(s) + 1 == 2 * s.tabataMaxRounds {
        assert RunPhases(s1, k - 1) == s1;
      } else {
        TabataSchedule(s1, k - 1);
      }
    }
  }

  // ---------------------------------------------------------------------------
  // Runs of ticks and commands

  datatype Event = Command(req: Request, at: int) | TickAt(at: int)

  function Step(s: TimerState, ev: Event): TimerState {
    match ev
    case Command(req, at) => Handle(s, req, at).state
    case TickAt(at) => Tick(s, at).state
  }

  function Run(s: TimerState, evs: seq<Event>): TimerState
    decreases |evs|
  {
    if evs == [] then s else Run(Step(s, evs[0]), evs[1..])
  }

  /**
   * Along any sequence of ticks and admissible commands, in any order and at
   * any clock readings, 0 <= remaining <= total and round >= 1 hold
   * throughout.
   */
  lemma {:induction false} RunKeepsInv(s: TimerState, evs: seq<Event>)
    requires Inv(s)
    requires forall i :: 0 <= i < |evs| && evs[i].Command? ==> Admissible(evs[i].req)
    ensures Inv(Run(s, evs))
    decreases |evs|
  {
    if evs != [] {
      assert Inv(Step(s, evs[0]));
      RunKeepsInv(Step(s, evs[0]), evs[1..]);
    }
  }

  /** The engine starts in a state satisfying the invariant and with its round in range. */
  lemma InitialStateIsValid()
    ensures Inv(InitialState) && RoundInRange(InitialState)
  {
  }

  // ---------------------------------------------------------------------------
  // Two concrete runs

  /**
   * A 25-minute focus timer started at time 0 and ticked 1500 s later: it
   * stops, rewinds to 1500 s, sounds one alert and raises "Focus Done".
   */
  lemma FocusScenario()
    ensures var started := Handle(InitialState, Start, 0).state;
      var o := Tick(started, 1500 * 1000);
      && o.state.runState == Stopped
      && o.state.remainingSeconds == 1500
      && Alerts(o.effects) == 1
      && OnlyNotice(o.effects, FocusDone)
      && NoticeTitle(FocusDone) == "Focus Done" && NoticeMessage(FocusDone) == "Take a break!"
  {
    var started := Handle(InitialState, Start, 0).state;
    TickFinishesTimer(started, 1500 * 1000);
  }

  /**
   * Tabata with 5 s work, 3 s rest and 2 rounds, started at time 0 and ticked
   * as each phase runs out: work, rest, work of round 2, rest, then stopped
   * and rewound to round 1's 5 s work phase.
   */
  lemma TabataScenario()
    ensures var s0 := Handle(Handle(InitialState, SetTabataConfig(5, 3, 2), 0).state, SetMode(Tabata, 5), 0).state;
      var s1 := Handle(s0, Start, 0).state;
      var s2 := Tick(s1, 5000).state;
      var s3 := Tick(s2, 8000).state;
      var s4 := Tick(s3, 13000).state;
      var s5 := Tick(s4, 16000).state;
      && s0.remainingSeconds == s0.totalSeconds == 5 && s0.tabataRound == 1 && s0.tabataPhase == Work
      && s2.tabataPhase == Rest && s2.remainingSeconds == 3 && s2.tabataRound == 1 && s2.runState == Running
      && s3.tabataPhase == Work && s3.remainingSeconds == 5 && s3.tabataRound == 2 && s3.runState == Running
      && s4.tabataPhase == Rest && s4.remainingSeconds == 3 && s4.tabataRound == 2 && s4.runState == Running
      && s5.runState == Stopped && s5.tabataRound == 1 && s5.tabataPhase == Work && s5.remainingSeconds == 5
  {
  }
}
